=== FILE: README.md ===
# pytyle3 window tracking, modelled in Dafny

This project models the client-tracking core of pytyle3, a helper that tiles
windows under an EWMH window manager. The core lives in `pt3/client.py`. It
has four parts:

- **Eligibility filter** (`should_ignore`). A first-match-wins decision over a
  window's WM_CLASS (ICCCM section 4.1.2.5) and WM_TRANSIENT_FOR (ICCCM
  section 4.1.2.6). It also looks at the EWMH `_NET_WM_WINDOW_TYPE`,
  `_NET_WM_STATE` and `_NET_WM_DESKTOP` properties. Alongside it runs a growing
  `ignore` cache of windows that can never be tiled.
- **Registry reconciliation** (`update_clients`, `track_client`,
  `untrack_client`). The `clients` map, keyed by window id, is diffed against
  `_NET_CLIENT_LIST_STACKING`.
- **Move detection**. The per-client `moving` flag and the global `GRAB`
  slot, driven by focus-out(Grab), configure notifications with button 1 or
  3 held, and focus-in(Ungrab). While `moving` is set, `moveresize` drops
  tiler geometry requests. Desktop tracking happens in the client's
  property-notify callback.
- **Geometry save/restore** (`save`, `restore`). Saved maximize flags are
  re-applied. The saved rectangle is re-projected proportionally when the
  window is now on a different monitor.

X is replaced by a snapshot of each window's properties: `Metadata.WindowInfo`,
looked up in a `map`. A window missing from the map has been destroyed. The
filter reads it as `Gone`, with every property absent, except in the client's
property callback: there the first X query of `should_ignore` about a
destroyed, uncached window fails with `BadWindow`, the callback swallows it,
and nothing changes (`Tracking.Answers`). Every transition is a pure function that returns the new
`Tracking.Registry` plus a trace of `ClientState.Effect`s. The trace holds the
Tiler notifications (client added, removed, moved, desktop changed) and the X
requests (add state atoms, move/resize). The global `GRAB` names a client
*object*: `client.py` compares with `is`. So each constructed client gets a
fresh `serial`, and `GRAB` stores that serial.

Files:

- `wrappers.dfy`: `Option`.
- `geometry.dfy`: rectangles and the re-projection.
- `metadata.dfy`: the per-window snapshot, atom names, ASCII lower-casing.
- `eligibility.dfy`: `should_ignore` and the cache.
- `client_state.dfy`: the client record, the effects, `save`, `restore`,
  `moveresize` and `is_button_pressed`.
- `tracking.dfy`: the registry, reconciliation and the callbacks.

Three behaviours of the code that are easy to miss:

- The state flags are checked atom by atom, in the window's own order, and
  the first sticky, shaded, hidden, fullscreen or modal atom decides
  (`Eligibility.Decide`).
- A `restore` whose saved state holds only one maximize flag re-applies that
  flag and then restores the geometry anyway. `restore` calls
  `window.moveresize` directly, so it is not blocked while the client is
  moving.
- Untracking a client does not clear `GRAB`. Object identity is what keeps a
  stale grab from matching a later client for the same window
  (`Tracking.GrabDoesNotSurviveRetrack`).

## Model

| member | source | states |
|---|---|---|
| `Metadata.Lower` | pt3/client.py:226-227 | Lower-casing keeps the length and maps each character through ASCII lower-casing, which is what Python 2 `str.lower()` does to a byte string |
| `Eligibility.FirstIndexFrom` | pt3/client.py:237-256 | The atom scan finds the first atom in the disqualifying set, and finds none exactly when no atom of the list is in the set |
| `Eligibility.Decide` | pt3/client.py:217-281 | The first-match-wins chain reports no reason exactly when every check passes; it reports `Cached` exactly when the wid is cached; it reports a permanent reason (transient, bad type) exactly when the window is uncached, not on the ignore list, and transient or of a disqualifying type |
| `Eligibility.ShouldIgnore` | pt3/client.py:217-281 | The verdict is "ignore" exactly when some check fails: cached, ignore-listed class, transient, one of the 13 window types, no state, a sticky/shaded/hidden/fullscreen/modal state, or desktop 0xFFFFFFFF. The wid is appended to the cache exactly when the decisive reason is transience or window type. A cached wid is ignored and the cache is left as is |
| `Eligibility.CacheIsSticky` | pt3/client.py:219-256 | After a permanent disqualifier has cached a window, any later call ignores it whatever its metadata has become, and leaves the cache as is |
| `Eligibility.MutableReasonsAreNotCached` | pt3/client.py:225-281 | An uncached window that is ignore-listed (even if transient), or that has no permanent disqualifier but has no state, a sticky/shaded/hidden/fullscreen/modal state or desktop 0xFFFFFFFF, is ignored and the cache is left unchanged |
| `Eligibility.IgnoredMonotone` | pt3/client.py:219-220 | A larger cache never turns an ignored window eligible |
| `Eligibility.RunFilterGrows` | pt3/client.py:219-256 | Over any run of filter calls the cache only grows: the old cache is a prefix of the new, and every appended entry is a window that one of the calls asked about and ignored |
| `Eligibility.RunFilterSticky` | pt3/client.py:219-234 | Over any run of filter calls a cached wid stays cached and every call about it answers "ignore" |
| `Geometry.Reproject` | pt3/client.py:110-119 | The new rectangle keeps the window's offset from the monitor origin and its size, each scaled by the ratio of new to old monitor size |
| `Geometry.ProportionalUnique` | pt3/client.py:110-119 | That proportionality determines the re-projected rectangle uniquely |
| `Geometry.ReprojectSameMonitor` | pt3/client.py:110-121 | Re-projecting onto the same monitor is the identity |
| `Geometry.ReprojectRoundTrip` | pt3/client.py:110-119 | Moving a rectangle to another monitor and back gives back the starting rectangle exactly |
| `Geometry.ReprojectExample` | pt3/client.py:110-119 | (10,10,200,100) on (0,0,1000,1000) becomes (20,5,400,50) on (0,0,2000,500) |
| `ClientState.NewClient` | pt3/client.py:27-59 | A new client is not moving and not floating. It reads its desktop and parent, and saves the current geometry and state. An absent or empty name becomes 'N/A' |
| `ClientState.Save` | pt3/client.py:77-79 | Saving records the current geometry and state and changes nothing else about the client |
| `ClientState.IsButtonPressed` | pt3/client.py:134-146 | A drag button is pressed when button 1 or button 3 is in the pointer mask. No reply or a vanished window counts as not pressed, and a mask without those two bits is not pressed |
| `ClientState.OnlyButtonsOneAndThreeCount` | pt3/client.py:140-142 | Modifier bits and button 2 alone never count; adding button 1 or 3 to any mask does |
| `ClientState.Moveresize` | pt3/client.py:123-132 | A moving client emits no geometry request; any other client emits exactly the one requested |
| `ClientState.MaximizeRequests` | pt3/client.py:84-96 | At most one state request is emitted, and with both maximize flags saved it re-applies both |
| `ClientState.RestoredFrame` | pt3/client.py:102-119 | The saved rectangle is kept as is on the same monitor, and is proportionally re-projected onto the current monitor otherwise |
| `ClientState.Restore` | pt3/client.py:81-121 | With both maximize flags saved: one request re-applying both, and no move/resize. Otherwise exactly one move/resize, last, to the restored rectangle. Before it comes the single saved flag's request when only one flag was saved, and nothing when neither was |
| `ClientState.FullyMaximizedIgnoresMonitors` | pt3/client.py:84-100 | A client saved with both maximize flags is restored by one request re-applying both, whatever the two monitor areas are, degenerate ones included |
| `ClientState.SaveThenRestore` | pt3/client.py:77-121 | Save then restore on an unchanged monitor moves the window back to the saved geometry unless it was fully maximized |
| `ClientState.RestoreOnOtherMonitorExample` | pt3/client.py:102-121 | A window saved at (10,10,200,100) on (0,0,1000,1000) and restored on (0,0,2000,500) gets exactly one move/resize, to (20,5,400,50) |
| `Tracking.TrackClient` | pt3/client.py:198-207 | Needs an untracked wid. The wid ends up tracked exactly when the filter lets it through, as a fresh client with one added notification. Otherwise nothing is emitted. Other entries and GRAB are unchanged, and the cache is the filter's |
| `Tracking.UntrackClient` | pt3/client.py:209-215 | Deletes exactly that key, with one removal notification if it was tracked. An untracked wid changes nothing. Cache, GRAB and serials are unchanged |
| `Tracking.UntrackIdempotent` | pt3/client.py:209-215 | A second untrack of the same wid emits nothing and changes nothing |
| `Tracking.TrackThenUntrack` | pt3/client.py:198-215 | Untrack undoes track: same clients and GRAB, and the trace is added-then-removed or empty |
| `Tracking.TrackOne` | pt3/client.py:192-193 | One turn of the tracking loop: the wid ends up tracked exactly when it already was or the filter lets it through. Only that wid can be added, with at most one notification naming it, and the cache grows only by ignored wids |
| `Tracking.Reverse` | pt3/client.py:190 | The reversed stacking list has the same members, in reverse order |
| `Tracking.TrackAll` | pt3/client.py:191-193 | Existing clients are kept as they were. The new clients are exactly the listed, untracked wids the filter lets through under the starting cache. Each is the client `Client(c)` builds from the window's metadata (not moving, desktop read, geometry and state saved), under a serial no earlier client holds. Each gets one added notification, and the notifications follow the order of the list. Cache growth only adds ignored wids |
| `Tracking.UntrackAll` | pt3/client.py:194-196 | Exactly the given keys are deleted (`update_clients` passes the tracked wids the stacking list no longer names), each with one removal notification, none repeated; the cache and GRAB are untouched |
| `Tracking.UpdateClients` | pt3/client.py:188-196 | Afterwards every tracked wid is listed, and every listed untracked wid is ignored. Listed clients are kept as they were. A listed wid that was untracked is now tracked exactly when the filter lets it through, as a freshly constructed client: not moving, built from the window's metadata, under a serial GRAB cannot name. The trace is one notification per added or removed client. Every addition comes before every removal, and the additions run from the top of the stacking list downwards. The cache grows only by windows the filter ignored, and GRAB is untouched. On an already settled registry no client is added or removed and nothing is emitted |
| `Tracking.UpdateClientsOrder` | pt3/client.py:188-196 | The tracking loop's notifications all precede the untracking loop's, and an addition notified earlier is for a window higher in the stacking list |
| `Tracking.ReconcileIdempotent` | pt3/client.py:188-196 | A second reconciliation with the same list and metadata creates and removes nothing |
| `Tracking.ReconcileDropsOne` | pt3/client.py:188-215 | Dropping one tracked wid from a settled list destroys exactly that client, with exactly one removal notification |
| `Tracking.CacheGrowthMonotone` | pt3/client.py:219-220 | Growing the cache never makes an ignored window eligible, for every window at once; derived from `Eligibility.IgnoredMonotone` |
| `Tracking.FocusIn` | pt3/client.py:148-152 | Focus-in(Ungrab) on a moving client clears GRAB and `moving` and emits exactly one moved notification, changing nothing else. In every other case nothing changes |
| `Tracking.FocusOut` | pt3/client.py:154-156 | Focus-out(Grab) makes GRAB name this client and leaves every client, `moving` included, unchanged. It emits nothing |
| `Tracking.ConfigureNotify` | pt3/client.py:158-160 | `moving` becomes true exactly when GRAB names this client and button 1 or 3 is held, and otherwise keeps its value. Nothing else changes and nothing is emitted |
| `Tracking.DragCycle` | pt3/client.py:148-160 | Focus-out(Grab), configure with button 1 held, focus-in(Ungrab): moving in between, and while moving a geometry request is dropped. Afterwards GRAB is clear, the clients are as before, and the whole trace is one moved notification |
| `Tracking.GrabBelongsToOneClient` | pt3/client.py:158-160 | While GRAB names one client, a configure notification for another changes nothing |
| `Tracking.GrabDoesNotSurviveRetrack` | pt3/client.py:154-160 | A grab armed by a client that was then untracked cannot start a drag on the window's next client |
| `Tracking.GrabDoesNotSurviveReconcile` | pt3/client.py:154-207 | A grab armed by a client that was then untracked cannot start a drag on the client that reconciliation later builds for the same window |
| `Tracking.PropertyNotify` | pt3/client.py:162-183 | On a desktop or state change, a now-ignored client is untracked with one removal notification. On a desktop change of an eligible client, the desktop is replaced and one notification carries the old desktop, but only when the new value is present and different. A destroyed window that is not in the cache changes nothing, because the failed query's `BadWindow` is swallowed. Otherwise, and for other atoms or untracked windows, nothing changes |
| `Tracking.BecameTransientIsUntracked` | pt3/client.py:166-181 | A tracked window that became transient is untracked and cached by its next desktop or state change, and no later reconciliation tracks it again, whatever its metadata has become by then |
| `Tracking.RootPropertyNotify` | pt3/client.py:283-287 | A stacking-list change on the root window gives exactly the outcome promised for `update_clients`: settled, listed clients kept, listed untracked windows tracked exactly when the filter lets them through as fresh clients, the cache grown only by ignored windows, GRAB untouched, and each addition and removal notified once, additions first. Any other atom changes nothing |

## Left out

- X protocol traffic (`ewmh.*`, `icccm.*`, `util.get_atom*`, `conn.core.QueryPointer`, `window.get_geometry`) is replaced by the per-window snapshot and the `PointerReply` parameter. A destroyed window's queries read as absent properties, except in the client's property callback, where the `BadWindow` they raise is swallowed and the callback changes nothing.
- Event subscription (`window.listen`, `event.connect`/`disconnect`, the module-level hookup of the root callback) is not modelled as such. A callback for an untracked window is a no-op, which is what disconnection achieves. The configure notification arrives on the decoration window (`parentid`); the model addresses it to the client's wid.
- `time.sleep(0.2)` before constructing a client while pytyle is running is a timing workaround with no logical effect.
- `rect.get_monitor_area` and the `tile` module are collaborators. Monitor areas are inputs to `restore`, and Tiler calls are entries in the effect trace.
- Python floating-point rounding in `restore` is not modelled; the ratios are exact reals.
- ClientState.Restore: Python raises ZeroDivisionError when the window changed monitor and the old monitor area has zero width or height. The model requires a non-zero old area only on that branch (a client not saved fully maximized, on a different monitor) instead of modelling the exception.
- Tracking.TrackClient, Tracking.UpdateClients: a listed window destroyed before `track_client` queries it makes `should_ignore` raise `BadWindow`, which neither `track_client` nor `update_clients` catches. The model reads such a window as `Gone`, which the filter ignores without caching, so it is skipped and reconciliation carries on.
- Tracking.UntrackAll: Python 2 does not specify the order of `clients.keys()`. The model removes stale clients in ascending wid order, so only the order of removal notifications is a modelling choice.
- Metadata.Lower: only ASCII letters are lower-cased, as `str.lower()` does for a Python 2 byte string in the C locale; locale-specific lower-casing is not modelled.
- Window ids and desktops are unbounded naturals, not 32-bit cardinals; nothing in the core does arithmetic on them.
- `activate`, `unmaximize`, `__str__`, debug logging and `print` are thin wrappers or output.
- `floating` is always false and no decision reads it.

=== FILE: client_state.dfy ===
/**
 * One tracked window: its record, the requests and notifications it emits,
 * saving and restoring its geometry, and the pointer-button test used by
 * move detection.
 */
module ClientState {
  import opened Wrappers
  import opened Geometry
  import opened Metadata

  /**
   * A tracked window. `serial` stands for the identity of the Python object:
   * each construction gets a fresh one, so a window tracked again is a new client.
   */
  datatype Client = Client(
    wid: Wid,
    serial: nat,
    name: string,
    parent: Wid,
    floating: bool,
    moving: bool,
    desk: Option<nat>,
    savedGeom: Rect,
    savedState: Option<seq<string>>)

  /** What the core asks of its collaborators: Tiler notifications and X requests. */
  datatype Effect =
    | ClientAdded(wid: Wid)
    | ClientRemoved(wid: Wid)
    | ClientMoved(wid: Wid)
    | DesktopChanged(wid: Wid, oldDesk: Option<nat>)
    | AddState(wid: Wid, atoms: seq<string>)
    | MoveResize(wid: Wid, x: Option<real>, y: Option<real>, w: Option<real>, h: Option<real>)

  /** Reply to QueryPointer: a button/modifier mask, no reply, or BadWindow. */
  datatype PointerReply = Pointer(mask: bv16) | NoReply | WindowGone

  /** KeyButMask bits of the core protocol. */
  const BUTTON1_MASK: bv16 := 0x100
  const BUTTON2_MASK: bv16 := 0x200
  const BUTTON3_MASK: bv16 := 0x400

  /** The client as constructed: not moving, not floating, desktop read, geometry saved. */
  function NewClient(wid: Wid, serial: nat, w: WindowInfo): (c: Client)
    ensures c.wid == wid && c.serial == serial && c.parent == w.parent
    ensures !c.moving && !c.floating
    ensures c.desk == w.desktop
    ensures c.savedGeom == w.geometry && c.savedState == w.wmState
    ensures c.name == if w.name.None? || w.name.value == "" then "N/A" else w.name.value
  {
    var name := w.name.GetOr("");
    Client(wid, serial, if name == "" then "N/A" else name, w.parent, false, false, w.desktop, w.geometry, w.wmState)
  }

  /** Snapshot the current geometry and state; nothing else about the client changes. */
  function Save(c: Client, w: WindowInfo): (c': Client)
    ensures c'.savedGeom == w.geometry && c'.savedState == w.wmState
    ensures c'.(savedGeom := c.savedGeom, savedState := c.savedState) == c
  {
    c.(savedGeom := w.geometry, savedState := w.wmState)
  }

  /** Button 1 or button 3 is held; a missing reply or a vanished window counts as not pressed. */
  function IsButtonPressed(p: PointerReply): (b: bool)
    ensures !p.Pointer? ==> !b
    ensures p.Pointer? && (p.mask & BUTTON1_MASK != 0 || p.mask & BUTTON3_MASK != 0) ==> b
    ensures p.Pointer? && p.mask & (BUTTON1_MASK | BUTTON3_MASK) == 0 ==> !b
  {
    match p
    case Pointer(mask) => mask & BUTTON1_MASK != 0 || mask & BUTTON3_MASK != 0
    case NoReply => false
    case WindowGone => false
  }

  /** Modifier keys and button 2 alone never look like a drag. */
  lemma OnlyButtonsOneAndThreeCount(m: bv16)
    ensures !IsButtonPressed(Pointer(m & !(BUTTON1_MASK | BUTTON3_MASK)))
    ensures IsButtonPressed(Pointer(m | BUTTON1_MASK)) && IsButtonPressed(Pointer(m | BUTTON3_MASK))
    ensures !IsButtonPressed(Pointer(BUTTON2_MASK | 0xFF))
  {
  }

  /** A geometry request from the tiler: dropped while the user is dragging the window. */
  function Moveresize(c: Client, x: Option<real>, y: Option<real>, w: Option<real>, h: Option<real>): (out: seq<Effect>)
    ensures c.moving ==> out == []
    ensures !c.moving ==> out == [MoveResize(c.wid, x, y, w, h)]
  {
    if c.moving then [] else [MoveResize(c.wid, x, y, w, h)]
  }

  /** Both maximize flags were saved: restoring the state restores the geometry too. */
  predicate FullyMaximized(c: Client) {
    c.savedState.Some? && STATE_MAXIMIZED_VERT in c.savedState.value && STATE_MAXIMIZED_HORZ in c.savedState.value
  }

  /** Division happens only when the monitor changed; then the old monitor must have a size. */
  predicate CanRestore(mnow: Rect, mold: Rect) {
    mnow != mold ==> Divisible(mold)
  }

  /** The saved rectangle, re-projected onto the current monitor if the monitor changed. */
  function RestoredFrame(c: Client, mnow: Rect, mold: Rect): (f: Frame)
    requires CanRestore(mnow, mold)
    ensures mnow == mold ==> f == ToFrame(c.savedGeom)
    ensures mnow != mold ==> Proportional(ToFrame(c.savedGeom), mold, mnow, f)
  {
    if mnow == mold then ToFrame(c.savedGeom) else Reproject(ToFrame(c.savedGeom), mold, mnow)
  }

  function Last<T>(s: seq<T>): T
    requires |s| > 0
  {
    s[|s| - 1]
  }

  predicate HasMoveResize(out: seq<Effect>) {
    exists i :: 0 <= i < |out| && out[i].MoveResize?
  }

  /** The saved maximize flags to re-apply: both, vertical only, horizontal only or none. */
  function MaximizeRequests(c: Client): (r: seq<Effect>)
    ensures |r| <= 1 && forall i :: 0 <= i < |r| ==> r[i].AddState? && r[i].wid == c.wid
    ensures FullyMaximized(c) ==> r == [AddState(c.wid, [STATE_MAXIMIZED_VERT, STATE_MAXIMIZED_HORZ])]
  {
    if c.savedState.None? || |c.savedState.value| == 0 then []
    else
      var s := c.savedState.value;
      if STATE_MAXIMIZED_VERT in s && STATE_MAXIMIZED_HORZ in s then [AddState(c.wid, [STATE_MAXIMIZED_VERT, STATE_MAXIMIZED_HORZ])]
      else if STATE_MAXIMIZED_VERT in s then [AddState(c.wid, [STATE_MAXIMIZED_VERT])]
      else if STATE_MAXIMIZED_HORZ in s then [AddState(c.wid, [STATE_MAXIMIZED_HORZ])]
      else []
  }

  /**
   * `restore`: re-apply saved maximize flags; unless both were set, move the
   * window to its saved rectangle, re-projected onto the monitor it is on now.
   * `mnow` and `mold` are the monitor areas of the current and saved geometry.
   */
  function Restore(c: Client, mnow: Rect, mold: Rect): (out: seq<Effect>)
    requires !FullyMaximized(c) ==> CanRestore(mnow, mold)
    ensures FullyMaximized(c) ==> out == [AddState(c.wid, [STATE_MAXIMIZED_VERT, STATE_MAXIMIZED_HORZ])]
    ensures HasMoveResize(out) <==> !FullyMaximized(c)
    ensures !FullyMaximized(c) ==>
              var f := RestoredFrame(c, mnow, mold);
              Last(out) == MoveResize(c.wid, Some(f.x), Some(f.y), Some(f.w), Some(f.h))
    ensures !FullyMaximized(c) && c.savedState.Some? && STATE_MAXIMIZED_VERT in c.savedState.value ==>
              out[0] == AddState(c.wid, [STATE_MAXIMIZED_VERT]) && |out| == 2
    ensures !FullyMaximized(c) && c.savedState.Some? && STATE_MAXIMIZED_HORZ in c.savedState.value ==>
              out[0] == AddState(c.wid, [STATE_MAXIMIZED_HORZ]) && |out| == 2
    ensures (c.savedState.None? || (STATE_MAXIMIZED_VERT !in c.savedState.value && STATE_MAXIMIZED_HORZ !in c.savedState.value)) ==>
              |out| == 1
  {
    var flags := MaximizeRequests(c);
    if FullyMaximized(c) then flags
    else
      var f := RestoredFrame(c, mnow, mold);
      var out := flags + [MoveResize(c.wid, Some(f.x), Some(f.y), Some(f.w), Some(f.h))];
      assert out[|flags|].MoveResize?;
      out
  }

  /**
   * Save then restore on an unchanged monitor puts the window back exactly
   * where it was saved, unless it was saved fully maximized.
   */
  lemma SaveThenRestore(c: Client, w: WindowInfo, m: Rect)
    requires !(w.wmState.Some? && STATE_MAXIMIZED_VERT in w.wmState.value && STATE_MAXIMIZED_HORZ in w.wmState.value)
    ensures var g := w.geometry;
            Last(Restore(Save(c, w), m, m)) == MoveResize(c.wid, Some(g.x as real), Some(g.y as real), Some(g.w as real), Some(g.h as real))
  {
  }

  /** A fully maximized window needs no monitor areas at all: even a zero-sized old area is fine. */
  lemma FullyMaximizedIgnoresMonitors(c: Client, mnow: Rect, mold: Rect)
    requires FullyMaximized(c)
    ensures Restore(c, mnow, mold) == [AddState(c.wid, [STATE_MAXIMIZED_VERT, STATE_MAXIMIZED_HORZ])]
  {
  }

  /** A window saved at (10,10,200,100) on a 1000x1000 monitor and restored on a 2000x500 one. */
  lemma RestoreOnOtherMonitorExample(c: Client)
    requires c.savedGeom == Rect(10, 10, 200, 100) && c.savedState == Some([])
    ensures Restore(c, Rect(0, 0, 2000, 500), Rect(0, 0, 1000, 1000))
            == [MoveResize(c.wid, Some(20.0), Some(5.0), Some(400.0), Some(50.0))]
  {
    ReprojectExample();
  }
}

=== FILE: eligibility.dfy ===
/**
 * The eligibility filter: whether a window is ever worth tiling, decided
 * first-match-wins over its metadata, with a growing cache of windows found
 * to be permanently ineligible.
 */
module Eligibility {
  import opened Wrappers
  import opened Metadata

  /** `_NET_WM_WINDOW_TYPE` values that are never tiled. */
  const DISQUALIFYING_TYPES: set<string> := {
    "_NET_WM_WINDOW_TYPE_DESKTOP",
    "_NET_WM_WINDOW_TYPE_DOCK",
    "_NET_WM_WINDOW_TYPE_TOOLBAR",
    "_NET_WM_WINDOW_TYPE_MENU",
    "_NET_WM_WINDOW_TYPE_UTILITY",
    "_NET_WM_WINDOW_TYPE_SPLASH",
    "_NET_WM_WINDOW_TYPE_DIALOG",
    "_NET_WM_WINDOW_TYPE_DROPDOWN_MENU",
    "_NET_WM_WINDOW_TYPE_POPUP_MENU",
    "_NET_WM_WINDOW_TYPE_TOOLTIP",
    "_NET_WM_WINDOW_TYPE_NOTIFICATION",
    "_NET_WM_WINDOW_TYPE_COMBO",
    "_NET_WM_WINDOW_TYPE_DND"
  }

  /** `_NET_WM_STATE` values that make a window ineligible for now. */
  const DISQUALIFYING_STATES: set<string> :=
    {STATE_SHADED, STATE_HIDDEN, STATE_FULLSCREEN, STATE_MODAL}

  /** Why a window is ignored; the first check that matches is reported. */
  datatype Reason =
    | Cached
    | InIgnoreList
    | Transient
    | BadType(windowType: string)
    | NoState
    | Sticky
    | BadState(state: string)
    | AllDesktops
  {
    /** Reasons rooted in what kind of window it is, which cannot change back. */
    predicate Permanent() {
      Transient? || BadType?
    }
  }

  /** The outcome of one filter call: the verdict and the ignore cache afterwards. */
  datatype Filtered = Filtered(ignored: bool, cache: seq<Wid>)

  predicate HasAny(atoms: seq<string>, bad: set<string>) {
    exists i :: 0 <= i < |atoms| && atoms[i] in bad
  }

  /** Index `i` holds the first atom of `atoms` that is in `bad`. */
  predicate FirstMatchAt(atoms: seq<string>, bad: set<string>, i: nat) {
    && i < |atoms|
    && atoms[i] in bad
    && forall j :: 0 <= j < i ==> atoms[j] !in bad
  }

  /** The scan `for atom in atoms: if atom in bad: ...`, resumed at `from`. */
  function FirstIndexFrom(atoms: seq<string>, bad: set<string>, from: nat): (r: Option<nat>)
    requires from <= |atoms|
    requires forall j :: 0 <= j < from ==> atoms[j] !in bad
    ensures r.Some? ==> FirstMatchAt(atoms, bad, r.value)
    ensures r.None? <==> !HasAny(atoms, bad)
    decreases |atoms| - from
  {
    if from == |atoms| then None
    else if atoms[from] in bad then Some(from)
    else FirstIndexFrom(atoms, bad, from + 1)
  }

  /** The WM_CLASS instance or class, lower-cased, is in the configured ignore list. */
  predicate Listed(ignoreList: set<string>, w: WindowInfo) {
    && w.wmClass.Some?
    && (Lower(w.wmClass.value.instance) in ignoreList || Lower(w.wmClass.value.className) in ignoreList)
  }

  /** Every check passes: the declarative reading of "the filter lets it through". */
  predicate Eligible(cache: seq<Wid>, ignoreList: set<string>, wid: Wid, w: WindowInfo) {
    && wid !in cache
    && !Listed(ignoreList, w)
    && w.transientFor.None?
    && !HasAny(w.windowType, DISQUALIFYING_TYPES)
    && w.wmState.Some?
    && !HasAny(w.wmState.value, DISQUALIFYING_STATES + {STATE_STICKY})
    && w.desktop != Some(ALL_DESKTOPS)
  }

  /**
   * Not cached yet, and the first check that fails is transience or window
   * type: only then is the window added to the cache.
   */
  predicate Cacheable(cache: seq<Wid>, ignoreList: set<string>, wid: Wid, w: WindowInfo) {
    && wid !in cache
    && !Listed(ignoreList, w)
    && (w.transientFor.Some? || HasAny(w.windowType, DISQUALIFYING_TYPES))
  }

  /** The checks in the order `should_ignore` makes them; `None` when the window is eligible. */
  function Decide(cache: seq<Wid>, ignoreList: set<string>, wid: Wid, w: WindowInfo): (r: Option<Reason>)
    ensures r.None? <==> Eligible(cache, ignoreList, wid, w)
    ensures r == Some(Cached) <==> wid in cache
    ensures r.Some? && r.value.Permanent() <==> Cacheable(cache, ignoreList, wid, w)
    ensures r.Some? && r.value.BadType? ==> r.value.windowType in DISQUALIFYING_TYPES
    ensures r.Some? && r.value.BadState? ==> r.value.state in DISQUALIFYING_STATES
  {
    if wid in cache then Some(Cached)
    else if Listed(ignoreList, w) then Some(InIgnoreList)
    else if w.transientFor.Some? then Some(Transient)
    else
      match FirstIndexFrom(w.windowType, DISQUALIFYING_TYPES, 0)
      case Some(i) => Some(BadType(w.windowType[i]))
      case None =>
        if w.wmState.None? then Some(NoState)
        else
          var states := w.wmState.value;
          match FirstIndexFrom(states, DISQUALIFYING_STATES + {STATE_STICKY}, 0)
          case Some(i) => if states[i] == STATE_STICKY then Some(Sticky) else Some(BadState(states[i]))
          case None => if w.desktop == Some(ALL_DESKTOPS) then Some(AllDesktops) else None
  }

  /**
   * `should_ignore`: the verdict, and the cache with `wid` appended exactly
   * when a permanent disqualifier was found.
   */
  function ShouldIgnore(cache: seq<Wid>, ignoreList: set<string>, wid: Wid, w: WindowInfo): (r: Filtered)
    ensures r.ignored <==> !Eligible(cache, ignoreList, wid, w)
    ensures r.cache == if Cacheable(cache, ignoreList, wid, w) then cache + [wid] else cache
    ensures wid in cache ==> r == Filtered(true, cache)
  {
    var d := Decide(cache, ignoreList, wid, w);
    Filtered(d.Some?, if d.Some? && d.value.Permanent() then cache + [wid] else cache)
  }

  /** Once `wid` is cached, every later call ignores it whatever its metadata has become. */
  lemma CacheIsSticky(cache: seq<Wid>, ignoreList: set<string>, wid: Wid, w: WindowInfo, later: WindowInfo)
    requires Cacheable(cache, ignoreList, wid, w)
    ensures var r := ShouldIgnore(cache, ignoreList, wid, w);
            r.ignored && wid in r.cache && ShouldIgnore(r.cache, ignoreList, wid, later) == Filtered(true, r.cache)
  {
  }

  /**
   * Reasons rooted in configuration or in mutable state (ignore list, no
   * state, a disqualifying state, all desktops) ignore the window without
   * caching it. The ignore list wins even over transience, since it is checked first.
   */
  lemma MutableReasonsAreNotCached(cache: seq<Wid>, ignoreList: set<string>, wid: Wid, w: WindowInfo)
    requires wid !in cache
    requires || Listed(ignoreList, w)
             || (&& w.transientFor.None?
                 && !HasAny(w.windowType, DISQUALIFYING_TYPES)
                 && (|| w.wmState.None?
                     || HasAny(w.wmState.value, DISQUALIFYING_STATES + {STATE_STICKY})
                     || w.desktop == Some(ALL_DESKTOPS)))
    ensures ShouldIgnore(cache, ignoreList, wid, w) == Filtered(true, cache)
  {
  }

  /** A larger cache never turns an ignored window into an eligible one. */
  lemma IgnoredMonotone(c1: seq<Wid>, c2: seq<Wid>, ignoreList: set<string>, wid: Wid, w: WindowInfo)
    requires forall k :: k in c1 ==> k in c2
    requires ShouldIgnore(c1, ignoreList, wid, w).ignored
    ensures ShouldIgnore(c2, ignoreList, wid, w).ignored
  {
  }

  /** A sequence of filter calls threading the cache; returns every verdict and the final cache. */
  function RunFilter(cache: seq<Wid>, ignoreList: set<string>, calls: seq<(Wid, WindowInfo)>): (r: (seq<bool>, seq<Wid>))
    ensures |r.0| == |calls|
    decreases |calls|
  {
    if calls == [] then ([], cache)
    else
      var f := ShouldIgnore(cache, ignoreList, calls[0].0, calls[0].1);
      var rest := RunFilter(f.cache, ignoreList, calls[1..]);
      ([f.ignored] + rest.0, rest.1)
  }

  /**
   * Across any run of filter calls the cache only grows: the old cache is a
   * prefix of the new, and every entry appended names a window that one of
   * the calls asked about and ignored.
   */
  lemma {:induction false} RunFilterGrows(cache: seq<Wid>, ignoreList: set<string>, calls: seq<(Wid, WindowInfo)>)
    ensures var r := RunFilter(cache, ignoreList, calls);
            && cache <= r.1
            && forall j :: |cache| <= j < |r.1| ==>
                 exists i :: 0 <= i < |calls| && calls[i].0 == r.1[j] && r.0[i]
    decreases |calls|
  {
    if calls != [] {
      var f := ShouldIgnore(cache, ignoreList, calls[0].0, calls[0].1);
      RunFilterGrows(f.cache, ignoreList, calls[1..]);
      var r := RunFilter(cache, ignoreList, calls);
      var rest := RunFilter(f.cache, ignoreList, calls[1..]);
      forall j | |cache| <= j < |r.1|
        ensures exists i :: 0 <= i < |calls| && calls[i].0 == r.1[j] && r.0[i]
      {
        if j < |f.cache| {
          assert f.cache == cache + [calls[0].0] && f.ignored;
          assert f.cache <= rest.1 && r.1 == rest.1;
          assert r.1[j] == f.cache[j] == calls[0].0 && r.0[0];
        } else {
          var i :| 0 <= i < |calls[1..]| && calls[1..][i].0 == rest.1[j] && rest.0[i];
          assert calls[i + 1].0 == r.1[j] && r.0[i + 1];
        }
      }
    }
  }

  /** A cached window is ignored by every later filter call about it, and stays cached. */
  lemma {:induction false} RunFilterSticky(cache: seq<Wid>, ignoreList: set<string>, calls: seq<(Wid, WindowInfo)>, wid: Wid)
    requires wid in cache
    ensures var r := RunFilter(cache, ignoreList, calls);
            && cache <= r.1
            && forall i :: 0 <= i < |calls| && calls[i].0 == wid ==> r.0[i]
    decreases |calls|
  {
    if calls != [] {
      var f := ShouldIgnore(cache, ignoreList, calls[0].0, calls[0].1);
      RunFilterSticky(f.cache, ignoreList, calls[1..], wid);
      var r := RunFilter(cache, ignoreList, calls);
      var rest := RunFilter(f.cache, ignoreList, calls[1..]);
      forall i | 0 <= i < |calls| && calls[i].0 == wid
        ensures r.0[i]
      {
        if i > 0 {
          assert calls[1..][i - 1] == calls[i];
        }
      }
    }
  }
}

=== FILE: geometry.dfy ===
/**
 * Rectangles in root-window coordinates and the proportional re-projection
 * of a rectangle from one monitor's area onto another's.
 */
module Geometry {

  /** An X geometry or monitor area: origin and size in whole pixels. */
  datatype Rect = Rect(x: int, y: int, w: int, h: int)

  /** A rectangle with exact fractional coordinates, as produced by re-projection. */
  datatype Frame = Frame(x: real, y: real, w: real, h: real)

  function ToFrame(r: Rect): Frame {
    Frame(r.x as real, r.y as real, r.w as real, r.h as real)
  }

  /** A monitor area that can be divided by: neither dimension is zero. */
  predicate Divisible(m: Rect) {
    m.w != 0 && m.h != 0
  }

  /**
   * `g` stands to monitor `to` as `f` stands to monitor `from`: on each axis the
   * offset from the monitor origin and the size are scaled by the same ratio
   * of monitor sizes (written multiplicatively, so it needs no division).
   */
  predicate Proportional(f: Frame, from: Rect, to: Rect, g: Frame) {
    && (g.x - to.x as real) * from.w as real == (f.x - from.x as real) * to.w as real
    && (g.y - to.y as real) * from.h as real == (f.y - from.y as real) * to.h as real
    && g.w * from.w as real == f.w * to.w as real
    && g.h * from.h as real == f.h * to.h as real
  }

  /** Cancel a non-zero common factor. */
  lemma Cancel(a: real, b: real, c: real)
    requires c != 0.0
    requires a * c == b * c
    ensures a == b
  {
    assert (a - b) * c == 0.0;
  }

  /**
   * Openbox-style monitor change: the window keeps its relative position and
   * relative size. Python computes the ratios in floating point; here they are exact.
   */
  function Reproject(f: Frame, from: Rect, to: Rect): (g: Frame)
    requires Divisible(from)
    ensures Proportional(f, from, to, g)
  {
    var xrat := to.w as real / from.w as real;
    var yrat := to.h as real / from.h as real;
    Frame(to.x as real + (f.x - from.x as real) * xrat,
          to.y as real + (f.y - from.y as real) * yrat,
          f.w * xrat,
          f.h * yrat)
  }

  /** Proportionality determines the re-projected rectangle uniquely. */
  lemma ProportionalUnique(f: Frame, from: Rect, to: Rect, g: Frame)
    requires Divisible(from)
    requires Proportional(f, from, to, g)
    ensures g == Reproject(f, from, to)
  {
    var r := Reproject(f, from, to);
    Cancel(g.x - to.x as real, r.x - to.x as real, from.w as real);
    Cancel(g.y - to.y as real, r.y - to.y as real, from.h as real);
    Cancel(g.w, r.w, from.w as real);
    Cancel(g.h, r.h, from.h as real);
  }

  /** Re-projecting onto the same monitor changes nothing. */
  lemma ReprojectSameMonitor(f: Frame, m: Rect)
    requires Divisible(m)
    ensures Reproject(f, m, m) == f
  {
    ProportionalUnique(f, m, m, f);
  }

  /** Moving to another monitor and back restores the rectangle exactly. */
  lemma ReprojectRoundTrip(f: Frame, a: Rect, b: Rect)
    requires Divisible(a) && Divisible(b)
    ensures Reproject(Reproject(f, a, b), b, a) == f
  {
    var g := Reproject(f, a, b);
    var h := Reproject(g, b, a);
    Cancel(h.x - a.x as real, f.x - a.x as real, b.w as real);
    Cancel(h.y - a.y as real, f.y - a.y as real, b.h as real);
    Cancel(h.w, f.w, b.w as real);
    Cancel(h.h, f.h, b.h as real);
  }

  /** A 200x100 window at (10,10) on a 1000x1000 monitor lands at (20,5), 400x50, on a 2000x500 one. */
  lemma ReprojectExample()
    ensures Reproject(Frame(10.0, 10.0, 200.0, 100.0), Rect(0, 0, 1000, 1000), Rect(0, 0, 2000, 500))
            == Frame(20.0, 5.0, 400.0, 50.0)
  {
    ProportionalUnique(Frame(10.0, 10.0, 200.0, 100.0), Rect(0, 0, 1000, 1000), Rect(0, 0, 2000, 500),
                       Frame(20.0, 5.0, 400.0, 50.0));
  }
}

=== FILE: metadata.dfy ===
/**
 * What the helper reads about one window from the X server, as a snapshot.
 * Every property query `client.py` makes becomes a field; atoms are kept by
 * their names, since `client.py` only ever compares atom names.
 */
module Metadata {
  import opened Wrappers
  import opened Geometry

  /** An X window id. */
  type Wid = nat

  /** WM_CLASS (ICCCM section 4.1.2.5): instance name and class name. */
  datatype WmClass = WmClass(instance: string, className: string)

  /**
   * One window's properties at the moment a callback runs. `windowType` is
   * `_NET_WM_WINDOW_TYPE`, where an absent property reads as the empty list
   * (`should_ignore` treats both alike); `wmState` is `_NET_WM_STATE`, where
   * absent and empty differ.
   */
  datatype WindowInfo = WindowInfo(
    name: Option<string>,
    parent: Wid,
    wmClass: Option<WmClass>,
    transientFor: Option<Wid>,
    windowType: seq<string>,
    wmState: Option<seq<string>>,
    desktop: Option<nat>,
    geometry: Rect)

  /** What a destroyed window answers: every property query comes back empty. */
  const Gone := WindowInfo(None, 0, None, None, [], None, None, Rect(0, 0, 0, 0))

  /** The snapshot of `wid`; a window the server no longer knows reads as `Gone`. */
  function Lookup(windows: map<Wid, WindowInfo>, wid: Wid): WindowInfo {
    if wid in windows then windows[wid] else Gone
  }

  /** `_NET_WM_DESKTOP` value meaning "on all desktops" (EWMH, Application Window Properties). */
  const ALL_DESKTOPS: nat := 0xFFFF_FFFF

  const NET_WM_DESKTOP := "_NET_WM_DESKTOP"
  const NET_WM_STATE := "_NET_WM_STATE"
  const NET_CLIENT_LIST_STACKING := "_NET_CLIENT_LIST_STACKING"

  const STATE_STICKY := "_NET_WM_STATE_STICKY"
  const STATE_SHADED := "_NET_WM_STATE_SHADED"
  const STATE_HIDDEN := "_NET_WM_STATE_HIDDEN"
  const STATE_FULLSCREEN := "_NET_WM_STATE_FULLSCREEN"
  const STATE_MODAL := "_NET_WM_STATE_MODAL"
  const STATE_MAXIMIZED_VERT := "_NET_WM_STATE_MAXIMIZED_VERT"
  const STATE_MAXIMIZED_HORZ := "_NET_WM_STATE_MAXIMIZED_HORZ"

  /** ASCII lower-casing, which is what `str.lower()` does to a Python 2 byte string. */
  function LowerChar(ch: char): char {
    if 'A' <= ch <= 'Z' then (ch as int + 32) as char else ch
  }

  function Lower(s: string): (r: string)
    ensures |r| == |s|
    ensures forall i :: 0 <= i < |s| ==> r[i] == LowerChar(s[i])
  {
    if s == [] then [] else [LowerChar(s[0])] + Lower(s[1..])
  }
}

=== FILE: tracking.dfy ===
/**
 * The process-wide registry of tracked windows: the `clients` map, the
 * `ignore` cache, the global GRAB slot, reconciliation against the stacking
 * list, and the per-window callbacks that drive move detection and
 * desktop tracking. Each operation returns the new registry and the
 * effects it emitted, in order.
 */
module Tracking {
  import opened Wrappers
  import opened Geometry
  import opened Metadata
  import opened Eligibility
  import opened ClientState

  /**
   * `clients` keyed by wid, the `ignore` cache, GRAB as the serial of the
   * grabbed client object (if any), and the serial the next client gets.
   */
  datatype Registry = Registry(clients: map<Wid, Client>, ignore: seq<Wid>, grab: Option<nat>, nextSerial: nat)

  /** What the registry reads: the configured ignore list and every window's properties. */
  datatype Env = Env(ignoreList: set<string>, windows: map<Wid, WindowInfo>)

  /** A transition's result: the new registry and the effects emitted. */
  datatype Step = Step(reg: Registry, out: seq<Effect>)

  /** X focus notification modes. */
  datatype NotifyMode = Normal | Grab | Ungrab | WhileGrabbed

  function Info(env: Env, wid: Wid): WindowInfo {
    Lookup(env.windows, wid)
  }

  /** The filter's verdict on `wid` given the cache `cache`. */
  predicate Ignored(cache: seq<Wid>, env: Env, wid: Wid) {
    ShouldIgnore(cache, env.ignoreList, wid, Info(env, wid)).ignored
  }

  /**
   * Each entry is keyed by its own wid; serials are below `nextSerial` and
   * distinct, so a serial names at most one tracked client; GRAB names a
   * client that has been constructed.
   */
  predicate Valid(reg: Registry) {
    && (forall k :: k in reg.clients ==> reg.clients[k].wid == k && reg.clients[k].serial < reg.nextSerial)
    && (forall j, k :: j in reg.clients && k in reg.clients && reg.clients[j].serial == reg.clients[k].serial ==> j == k)
    && (reg.grab.Some? ==> reg.grab.value < reg.nextSerial)
  }

  /** Nothing tracked, nothing cached, nothing grabbed. */
  const Empty := Registry(map[], [], None, 0)

  lemma EmptyIsValid()
    ensures Valid(Empty)
  {
  }

  /** Growing the cache leaves every verdict unchanged when only ignored windows were added. */
  lemma CacheGrowthKeepsVerdicts(c1: seq<Wid>, c2: seq<Wid>, env: Env)
    requires forall k :: k in c1 ==> k in c2
    requires forall k :: k in c2 && k !in c1 ==> Ignored(c1, env, k)
    ensures forall k :: Ignored(c2, env, k) == Ignored(c1, env, k)
  {
  }

  /** Growing the cache never makes an ignored window eligible. */
  lemma CacheGrowthMonotone(c1: seq<Wid>, c2: seq<Wid>, env: Env)
    requires forall k :: k in c1 ==> k in c2
    ensures forall k :: Ignored(c1, env, k) ==> Ignored(c2, env, k)
  {
    forall k | Ignored(c1, env, k)
      ensures Ignored(c2, env, k)
    {
      IgnoredMonotone(c1, c2, env.ignoreList, k, Info(env, k));
    }
  }

  /**
   * `track_client`: the caller guarantees `wid` is untracked (`client.py`
   * asserts it). An eligible window becomes a fresh client and the Tiler is
   * told once; otherwise only the cache may grow.
   */
  function TrackClient(reg: Registry, env: Env, wid: Wid): (s: Step)
    requires wid !in reg.clients
    ensures var f := ShouldIgnore(reg.ignore, env.ignoreList, wid, Info(env, wid));
            && s.reg.ignore == f.cache
            && (wid in s.reg.clients <==> !f.ignored)
    ensures s.reg.clients - {wid} == reg.clients
    ensures wid in s.reg.clients ==>
              && s.reg.clients[wid] == NewClient(wid, reg.nextSerial, Info(env, wid))
              && s.out == [ClientAdded(wid)]
    ensures wid !in s.reg.clients ==> s.out == []
    ensures s.reg.grab == reg.grab && reg.nextSerial <= s.reg.nextSerial
    ensures Valid(reg) ==> Valid(s.reg)
  {
    var f := ShouldIgnore(reg.ignore, env.ignoreList, wid, Info(env, wid));
    if f.ignored then
      Step(reg.(ignore := f.cache), [])
    else
      var c := NewClient(wid, reg.nextSerial, Info(env, wid));
      Step(reg.(ignore := f.cache, clients := reg.clients[wid := c], nextSerial := reg.nextSerial + 1), [ClientAdded(wid)])
  }

  /**
   * `untrack_client`: no-op for an untracked wid; otherwise delete exactly
   * that key and tell the Tiler once. GRAB is left alone, as in `client.py`.
   */
  function UntrackClient(reg: Registry, wid: Wid): (s: Step)
    ensures s.reg.clients == reg.clients - {wid}
    ensures s.reg.ignore == reg.ignore && s.reg.grab == reg.grab && s.reg.nextSerial == reg.nextSerial
    ensures s.out == if wid in reg.clients then [ClientRemoved(wid)] else []
    ensures Valid(reg) ==> Valid(s.reg)
  {
    if wid !in reg.clients then Step(reg, [])
    else Step(reg.(clients := reg.clients - {wid}), [ClientRemoved(wid)])
  }

  /** Untracking twice is the same as untracking once. */
  lemma UntrackIdempotent(reg: Registry, wid: Wid)
    ensures var s := UntrackClient(reg, wid);
            UntrackClient(s.reg, wid) == Step(s.reg, [])
  {
  }

  /** Untracking undoes tracking, apart from the serial consumed and the cache. */
  lemma TrackThenUntrack(reg: Registry, env: Env, wid: Wid)
    requires wid !in reg.clients
    ensures var t := TrackClient(reg, env, wid);
            var u := UntrackClient(t.reg, wid);
            && u.reg.clients == reg.clients
            && u.reg.grab == reg.grab
            && t.out + u.out == if wid in t.reg.clients then [ClientAdded(wid), ClientRemoved(wid)] else []
  {
  }

  /** `list(reversed(...))`. */
  function Reverse(s: seq<Wid>): (r: seq<Wid>)
    ensures |r| == |s|
    ensures forall i :: 0 <= i < |s| ==> r[i] == s[|s| - 1 - i]
    ensures forall k :: k in r <==> k in s
  {
    if s == [] then [] else Reverse(s[1..]) + [s[0]]
  }

  /**
   * `s` keeps every client of `reg` as it was, only adds clients, and
   * notifies one addition for each added client, none repeated.
   */
  predicate AddedExactly(reg: Registry, s: Step) {
    && (forall k :: k in reg.clients ==> k in s.reg.clients && s.reg.clients[k] == reg.clients[k])
    && (forall i :: 0 <= i < |s.out| ==>
          s.out[i].ClientAdded? && s.out[i].wid in s.reg.clients && s.out[i].wid !in reg.clients)
    && (forall k :: k in s.reg.clients && k !in reg.clients ==> ClientAdded(k) in s.out)
    && (forall i, j :: 0 <= i < j < |s.out| ==> s.out[i] != s.out[j])
  }

  /** A non-empty sequence is its head followed by its tail. */
  lemma SplitHead<T>(s: seq<T>)
    ensures |s| > 0 ==> s == [s[0]] + s[1..]
  {
  }

  /** Adding no client means notifying nothing. */
  lemma NothingAddedNothingSaid(reg: Registry, s: Step)
    requires AddedExactly(reg, s)
    requires s.reg.clients.Keys <= reg.clients.Keys
    ensures s.reg.clients == reg.clients && s.out == []
  {
    SplitHead(s.out);
  }

  /** Two rounds of adding compose into one. */
  lemma AddedExactlyCompose(reg: Registry, s1: Step, s2: Step)
    requires AddedExactly(reg, s1) && AddedExactly(s1.reg, s2)
    ensures AddedExactly(reg, Step(s2.reg, s1.out + s2.out))
  {
    AddedOutConcat(reg, s1, s2);
    AddedAllAnnounced(reg, s1, s2);
    assert forall i, j :: 0 <= i < |s1.out| && 0 <= j < |s2.out| ==> s1.out[i].wid != s2.out[j].wid;
    DistinctConcat(s1.out, s2.out);
  }

  /** Each notification of either round announces a client of the final registry that `reg` lacked. */
  lemma AddedOutConcat(reg: Registry, s1: Step, s2: Step)
    requires AddedExactly(reg, s1) && AddedExactly(s1.reg, s2)
    ensures var out := s1.out + s2.out;
            forall i :: 0 <= i < |out| ==>
              out[i].ClientAdded? && out[i].wid in s2.reg.clients && out[i].wid !in reg.clients
  {
    var out := s1.out + s2.out;
    forall i | 0 <= i < |out|
      ensures out[i].ClientAdded? && out[i].wid in s2.reg.clients && out[i].wid !in reg.clients
    {
      if i < |s1.out| {
        assert out[i] == s1.out[i];
      } else {
        assert out[i] == s2.out[i - |s1.out|];
      }
    }
  }

  /** Every client added over both rounds is announced in one of them. */
  lemma AddedAllAnnounced(reg: Registry, s1: Step, s2: Step)
    requires AddedExactly(reg, s1) && AddedExactly(s1.reg, s2)
    ensures forall k :: k in s2.reg.clients && k !in reg.clients ==> ClientAdded(k) in s1.out + s2.out
  {
    var out := s1.out + s2.out;
    forall k | k in s2.reg.clients && k !in reg.clients
      ensures ClientAdded(k) in out
    {
      if k in s1.reg.clients {
        var p :| 0 <= p < |s1.out| && s1.out[p] == ClientAdded(k);
        assert out[p] == ClientAdded(k);
      } else {
        var p :| 0 <= p < |s2.out| && s2.out[p] == ClientAdded(k);
        assert out[|s1.out| + p] == ClientAdded(k);
      }
    }
  }

  /** Two repetition-free traces with no notification in common concatenate without repetition. */
  lemma DistinctConcat(a: seq<Effect>, b: seq<Effect>)
    requires forall i, j :: 0 <= i < j < |a| ==> a[i] != a[j]
    requires forall i, j :: 0 <= i < j < |b| ==> b[i] != b[j]
    requires forall i, j :: 0 <= i < |a| && 0 <= j < |b| ==> a[i].wid != b[j].wid
    ensures forall i, j :: 0 <= i < j < |a + b| ==> (a + b)[i] != (a + b)[j]
  {
    var out := a + b;
    forall i, j | 0 <= i < j < |out|
      ensures out[i] != out[j]
    {
      if j < |a| {
        assert out[i] == a[i] && out[j] == a[j];
      } else if i >= |a| {
        assert out[i] == b[i - |a|] && out[j] == b[j - |a|];
      } else {
        assert out[i] == a[i] && out[j] == b[j - |a|];
      }
    }
  }

  /** `a` occurs in `todo` at an earlier position than `b`. */
  predicate Before(todo: seq<Wid>, a: Wid, b: Wid) {
    exists p, q :: 0 <= p < q < |todo| && todo[p] == a && todo[q] == b
  }

  /** Order in a list read backwards is the reverse order. */
  lemma BeforeReverse(s: seq<Wid>, a: Wid, b: Wid)
    requires Before(Reverse(s), a, b)
    ensures Before(s, b, a)
  {
    var r := Reverse(s);
    var p, q :| 0 <= p < q < |r| && r[p] == a && r[q] == b;
    assert s[|s| - 1 - q] == b && s[|s| - 1 - p] == a;
  }

  /**
   * Notifications about the head of `todo` (at most one) followed by
   * notifications ordered along the tail are ordered along `todo`.
   */
  lemma OrderedCons(todo: seq<Wid>, head: seq<Effect>, tail: seq<Effect>)
    requires |todo| > 0 && |head| <= 1
    requires forall i :: 0 <= i < |head| ==> head[i].wid == todo[0]
    requires forall i :: 0 <= i < |tail| ==> tail[i].wid in todo[1..]
    requires forall i, j :: 0 <= i < j < |tail| ==> Before(todo[1..], tail[i].wid, tail[j].wid)
    ensures var out := head + tail;
            forall i, j :: 0 <= i < j < |out| ==> Before(todo, out[i].wid, out[j].wid)
  {
    var out := head + tail;
    forall i, j | 0 <= i < j < |out|
      ensures Before(todo, out[i].wid, out[j].wid)
    {
      var n := |head|;
      if i < n {
        assert out[i] == head[i] && out[j] == tail[j - n];
        var q :| 0 <= q < |todo[1..]| && todo[1..][q] == tail[j - n].wid;
        assert todo[0] == out[i].wid && todo[q + 1] == out[j].wid;
      } else {
        assert out[i] == tail[i - n] && out[j] == tail[j - n];
        var p, q :| 0 <= p < q < |todo[1..]| && todo[1..][p] == tail[i - n].wid && todo[1..][q] == tail[j - n].wid;
        assert todo[p + 1] == out[i].wid && todo[q + 1] == out[j].wid;
      }
    }
  }

  /**
   * Every client `s` adds to `reg` is as `Client(c)` constructs it from the
   * window's metadata, under a serial no client of `reg` can hold.
   */
  predicate AddedFresh(reg: Registry, env: Env, s: Step) {
    && reg.nextSerial <= s.reg.nextSerial
    && forall k :: k in s.reg.clients && k !in reg.clients ==>
         && reg.nextSerial <= s.reg.clients[k].serial
         && s.reg.clients[k] == NewClient(k, s.reg.clients[k].serial, Info(env, k))
  }

  lemma AddedFreshCompose(reg: Registry, env: Env, s1: Step, s2: Step)
    requires AddedFresh(reg, env, s1) && AddedFresh(s1.reg, env, s2)
    requires forall k :: k in s1.reg.clients ==> k in s2.reg.clients && s2.reg.clients[k] == s1.reg.clients[k]
    ensures AddedFresh(reg, env, Step(s2.reg, s1.out + s2.out))
  {
  }

  /** The cache only grows, and only by windows the starting cache already ignored. */
  predicate CacheGrown(reg: Registry, env: Env, s: Step) {
    && reg.ignore <= s.reg.ignore
    && forall k :: k in s.reg.ignore && k !in reg.ignore ==> Ignored(reg.ignore, env, k)
  }

  lemma CacheGrownCompose(reg: Registry, env: Env, s1: Step, s2: Step)
    requires CacheGrown(reg, env, s1) && CacheGrown(s1.reg, env, s2)
    ensures CacheGrown(reg, env, Step(s2.reg, s1.out + s2.out))
  {
    CacheGrowthKeepsVerdicts(reg.ignore, s1.reg.ignore, env);
  }

  /**
   * The clients `s` adds to `reg` are exactly the untracked wids of `todo`
   * that the cache of `reg` does not ignore.
   */
  predicate Selected(reg: Registry, env: Env, todo: seq<Wid>, s: Step) {
    && (forall k :: k in s.reg.clients && k !in reg.clients ==> k in todo && !Ignored(reg.ignore, env, k))
    && (forall k :: k in todo && k !in reg.clients && !Ignored(reg.ignore, env, k) ==> k in s.reg.clients)
  }

  /** The notifications in `out` name windows in the order they appear in `todo`. */
  predicate Ordered(todo: seq<Wid>, out: seq<Effect>) {
    forall i, j :: 0 <= i < j < |out| ==> Before(todo, out[i].wid, out[j].wid)
  }

  /**
   * One turn of the first loop of `update_clients`: a listed wid that is not
   * tracked yet goes to `track_client`; a tracked one is left alone.
   */
  function TrackOne(reg: Registry, env: Env, wid: Wid): (s: Step)
    ensures wid in s.reg.clients <==> wid in reg.clients || !Ignored(reg.ignore, env, wid)
    ensures s.reg.clients.Keys <= reg.clients.Keys + {wid}
    ensures |s.out| <= 1 && forall i :: 0 <= i < |s.out| ==> s.out[i].wid == wid
    ensures CacheGrown(reg, env, s) && AddedExactly(reg, s) && AddedFresh(reg, env, s)
    ensures s.reg.grab == reg.grab
    ensures Valid(reg) ==> Valid(s.reg)
  {
    if wid in reg.clients then Step(reg, []) else TrackClient(reg, env, wid)
  }

  /** A turn of the loop followed by the rest of it tracks the selected wids of the whole list. */
  lemma SelectedCompose(reg: Registry, env: Env, todo: seq<Wid>, s1: Step, s2: Step)
    requires todo != [] && s1 == TrackOne(reg, env, todo[0])
    requires AddedExactly(s1.reg, s2) && Selected(s1.reg, env, todo[1..], s2)
    ensures Selected(reg, env, todo, Step(s2.reg, s1.out + s2.out))
  {
    CacheGrowthKeepsVerdicts(reg.ignore, s1.reg.ignore, env);
  }

  /** The first loop of `update_clients`: track every listed wid not tracked yet, in order. */
  function TrackAll(reg: Registry, env: Env, todo: seq<Wid>): (s: Step)
    ensures s.reg.grab == reg.grab
    ensures Valid(reg) ==> Valid(s.reg)
    ensures CacheGrown(reg, env, s)
    ensures AddedExactly(reg, s)
    ensures Selected(reg, env, todo, s)
    ensures Ordered(todo, s.out)
    ensures AddedFresh(reg, env, s)
    decreases |todo|
  {
    if todo == [] then Step(reg, [])
    else
      var s1 := TrackOne(reg, env, todo[0]);
      var s2 := TrackAll(s1.reg, env, todo[1..]);
      var s := Step(s2.reg, s1.out + s2.out);
      assert CacheGrown(reg, env, s) by { CacheGrownCompose(reg, env, s1, s2); }
      assert AddedExactly(reg, s) by { AddedExactlyCompose(reg, s1, s2); }
      assert Selected(reg, env, todo, s) by { SelectedCompose(reg, env, todo, s1, s2); }
      assert Ordered(todo, s.out) by { OrderedCons(todo, s1.out, s2.out); }
      assert AddedFresh(reg, env, s) by { AddedFreshCompose(reg, env, s1, s2); }
      s
  }

  /** `m` is the least element of `s`. */
  predicate IsLeast(m: Wid, s: set<Wid>) {
    m in s && forall k :: k in s ==> m <= k
  }

  lemma {:induction false} MinExists(s: set<Wid>)
    requires s != {}
    ensures exists m :: IsLeast(m, s)
    decreases s
  {
    var x :| x in s;
    var rest := s - {x};
    if rest == {} {
      forall k | k in s
        ensures x <= k
      {
        assert k !in rest;
      }
      assert IsLeast(x, s);
    } else {
      MinExists(rest);
      var m :| IsLeast(m, rest);
      var least := if x < m then x else m;
      forall k | k in s
        ensures least <= k
      {
        if k != x {
          assert k in rest;
        }
      }
      assert IsLeast(least, s);
    }
  }

  /** The least wid of a non-empty set. */
  function MinOf(s: set<Wid>): (m: Wid)
    requires s != {}
    ensures IsLeast(m, s)
  {
    MinExists(s);
    var m :| IsLeast(m, s);
    m
  }

  /**
   * `s` is `reg` with exactly the keys `stale` deleted, and one removal
   * notification for each of them, none repeated.
   */
  predicate RemovedExactly(reg: Registry, stale: set<Wid>, s: Step) {
    && s.reg == reg.(clients := reg.clients - stale)
    && (forall i :: 0 <= i < |s.out| ==> s.out[i].ClientRemoved? && s.out[i].wid in stale)
    && (forall k :: k in stale ==> ClientRemoved(k) in s.out)
    && (forall i, j :: 0 <= i < j < |s.out| ==> s.out[i] != s.out[j])
  }

  /**
   * The second loop of `update_clients`: untrack every stale wid. Python 2
   * leaves the order of `clients.keys()` unspecified; the model takes them
   * in ascending order.
   */
  function UntrackAll(reg: Registry, stale: set<Wid>): (s: Step)
    requires stale <= reg.clients.Keys
    ensures RemovedExactly(reg, stale, s)
    decreases stale
  {
    if stale == {} then Step(reg, [])
    else
      var k := MinOf(stale);
      var s1 := UntrackClient(reg, k);
      var s2 := UntrackAll(s1.reg, stale - {k});
      assert s2.reg.clients == reg.clients - stale;
      Step(s2.reg, s1.out + s2.out)
  }

  /** The tracked wids the stacking list no longer names: the second loop of `update_clients` drops these. */
  function Stale(clients: map<Wid, Client>, stacking: seq<Wid>): (r: set<Wid>)
    ensures forall k :: k in r <==> k in clients && k !in stacking
  {
    set k | k in clients && k !in stacking
  }

  /**
   * Reconciled with `stacking`: every tracked wid is listed, and every listed
   * wid left untracked is one the filter ignores.
   */
  predicate Settled(reg: Registry, env: Env, stacking: seq<Wid>) {
    && (forall k :: k in reg.clients ==> k in stacking)
    && (forall k :: k in stacking && k !in reg.clients ==> Ignored(reg.ignore, env, k))
  }

  /**
   * The outcome `update_clients` promises: the registry is settled against
   * `stacking`, listed clients are kept, a listed untracked window is tracked
   * exactly when the filter lets it through, as a freshly constructed client,
   * the cache grows only by windows the filter ignored, GRAB is untouched,
   * and the trace names each addition and removal once, additions first and
   * from the top of the stack down.
   */
  predicate Reconciled(reg: Registry, env: Env, stacking: seq<Wid>, s: Step) {
    && Settled(s.reg, env, stacking)
    && (forall k :: k in reg.clients && k in stacking ==> k in s.reg.clients && s.reg.clients[k] == reg.clients[k])
    && (forall k :: k in stacking && k !in reg.clients ==> (k in s.reg.clients <==> !Ignored(reg.ignore, env, k)))
    && (forall k :: k in s.reg.clients && k !in reg.clients ==>
          && reg.nextSerial <= s.reg.clients[k].serial
          && s.reg.clients[k] == NewClient(k, s.reg.clients[k].serial, Info(env, k)))
    && (forall i :: 0 <= i < |s.out| ==>
          || (s.out[i].ClientAdded? && s.out[i].wid !in reg.clients && s.out[i].wid in s.reg.clients)
          || (s.out[i].ClientRemoved? && s.out[i].wid in reg.clients && s.out[i].wid !in s.reg.clients))
    && (forall k :: k in s.reg.clients && k !in reg.clients ==> ClientAdded(k) in s.out)
    && (forall k :: k in reg.clients && k !in s.reg.clients ==> ClientRemoved(k) in s.out)
    && (forall i, j :: 0 <= i < j < |s.out| ==> s.out[i] != s.out[j])
    && (forall i, j :: 0 <= i < j < |s.out| && s.out[j].ClientAdded? ==>
          s.out[i].ClientAdded? && Before(stacking, s.out[j].wid, s.out[i].wid))
    && (Settled(reg, env, stacking) ==> s.reg.clients == reg.clients && s.out == [])
    && CacheGrown(reg, env, s) && s.reg.grab == reg.grab
    && (Valid(reg) ==> Valid(s.reg))
  }

  /**
   * `update_clients`: track new eligible windows top of the stack first, then
   * untrack every tracked window no longer listed. A second run on a
   * settled registry creates and removes nothing.
   */
  function UpdateClients(reg: Registry, env: Env, stacking: seq<Wid>): (s: Step)
    ensures Reconciled(reg, env, stacking, s)
  {
    var t := TrackAll(reg, env, Reverse(stacking));
    var stale := Stale(t.reg.clients, stacking);
    var u := UntrackAll(t.reg, stale);
    var s := Step(u.reg, t.out + u.out);
    assert Reconciled(reg, env, stacking, s) by { UpdateClientsPost(reg, env, stacking, t, stale, u); }
    s
  }

  /** The two loops of `update_clients`, given only what each promises, meet its contract. */
  lemma UpdateClientsPost(reg: Registry, env: Env, stacking: seq<Wid>, t: Step, stale: set<Wid>, u: Step)
    requires t.reg.grab == reg.grab && (Valid(reg) ==> Valid(t.reg))
    requires CacheGrown(reg, env, t) && AddedExactly(reg, t) && AddedFresh(reg, env, t)
    requires Selected(reg, env, Reverse(stacking), t) && Ordered(Reverse(stacking), t.out)
    requires stale == Stale(t.reg.clients, stacking)
    requires RemovedExactly(t.reg, stale, u)
    ensures Reconciled(reg, env, stacking, Step(u.reg, t.out + u.out))
  {
    UpdateClientsSettles(reg, env, stacking, t, stale, u);
    assert forall k :: k in t.reg.clients && k !in reg.clients ==> k in stacking && !Ignored(reg.ignore, env, k);
    RemovalKeepsValid(t.reg, stale, u);
    UpdateClientsEffects(reg, stacking, t, stale, u);
    UpdateClientsOrder(reg, stacking, t, stale, u);
    UpdateClientsFresh(reg, env, t, stale, u);
    SettledIsFixpoint(reg, env, stacking, t, stale, u);
  }

  /** Deleting clients keeps the registry valid. */
  lemma RemovalKeepsValid(reg: Registry, stale: set<Wid>, u: Step)
    requires RemovedExactly(reg, stale, u)
    ensures Valid(reg) ==> Valid(u.reg)
  {
  }

  /** Reconciling a settled registry changes no client and emits nothing. */
  lemma SettledIsFixpoint(reg: Registry, env: Env, stacking: seq<Wid>, t: Step, stale: set<Wid>, u: Step)
    requires AddedExactly(reg, t)
    requires forall k :: k in t.reg.clients && k !in reg.clients ==> k in stacking && !Ignored(reg.ignore, env, k)
    requires stale == Stale(t.reg.clients, stacking)
    requires RemovedExactly(t.reg, stale, u)
    ensures Settled(reg, env, stacking) ==> u.reg.clients == reg.clients && t.out + u.out == []
  {
    if Settled(reg, env, stacking) {
      NothingAddedNothingSaid(reg, t);
      assert stale == {};
      SplitHead(u.out);
    }
  }

  /** When every listed untracked wid is ignored, the tracking loop changes no client and emits nothing. */
  lemma TrackAllNoNew(reg: Registry, env: Env, todo: seq<Wid>)
    requires forall k :: k in todo && k !in reg.clients ==> Ignored(reg.ignore, env, k)
    ensures TrackAll(reg, env, todo).reg.clients == reg.clients
    ensures TrackAll(reg, env, todo).out == []
  {
    var t := TrackAll(reg, env, todo);
    NothingAddedNothingSaid(reg, t);
  }

  /** After both loops the registry is settled and listed clients are untouched. */
  lemma UpdateClientsSettles(reg: Registry, env: Env, stacking: seq<Wid>, t: Step, stale: set<Wid>, u: Step)
    requires CacheGrown(reg, env, t) && AddedExactly(reg, t) && Selected(reg, env, Reverse(stacking), t)
    requires stale == Stale(t.reg.clients, stacking)
    requires RemovedExactly(t.reg, stale, u)
    ensures Settled(u.reg, env, stacking)
    ensures forall k :: k in reg.clients && k in stacking ==> k in u.reg.clients && u.reg.clients[k] == reg.clients[k]
    ensures forall k :: k in stacking && k !in reg.clients ==> (k in u.reg.clients <==> !Ignored(reg.ignore, env, k))
  {
    assert u.reg.clients == t.reg.clients - stale;
    forall k | k in stacking && k !in u.reg.clients
      ensures Ignored(u.reg.ignore, env, k)
    {
      assert k in Reverse(stacking);
      assert k !in t.reg.clients;
      CacheGrowthMonotone(reg.ignore, u.reg.ignore, env);
    }
    forall k | k in stacking && k !in reg.clients
      ensures k in u.reg.clients <==> !Ignored(reg.ignore, env, k)
    {
      assert k in Reverse(stacking);
    }
    forall k | k in reg.clients && k in stacking
      ensures k in u.reg.clients && u.reg.clients[k] == reg.clients[k]
    {
      assert k in t.reg.clients && t.reg.clients[k] == reg.clients[k];
      assert k !in stale;
    }
  }

  /** The effects of both loops: one addition per new client, one removal per dropped one. */
  lemma UpdateClientsEffects(reg: Registry, stacking: seq<Wid>, t: Step, stale: set<Wid>, u: Step)
    requires AddedExactly(reg, t)
    requires forall k :: k in t.reg.clients && k !in reg.clients ==> k in stacking
    requires stale == Stale(t.reg.clients, stacking)
    requires RemovedExactly(t.reg, stale, u)
    ensures var out := t.out + u.out;
            && (forall i :: 0 <= i < |out| ==>
                  || (out[i].ClientAdded? && out[i].wid !in reg.clients && out[i].wid in u.reg.clients)
                  || (out[i].ClientRemoved? && out[i].wid in reg.clients && out[i].wid !in u.reg.clients))
            && (forall k :: k in u.reg.clients && k !in reg.clients ==> ClientAdded(k) in out)
            && (forall k :: k in reg.clients && k !in u.reg.clients ==> ClientRemoved(k) in out)
            && (forall i, j :: 0 <= i < j < |out| ==> out[i] != out[j])
  {
    var out := t.out + u.out;
    forall i | 0 <= i < |out|
      ensures || (out[i].ClientAdded? && out[i].wid !in reg.clients && out[i].wid in u.reg.clients)
              || (out[i].ClientRemoved? && out[i].wid in reg.clients && out[i].wid !in u.reg.clients)
    {
      if i < |t.out| {
        assert out[i] == t.out[i];
      } else {
        assert out[i] == u.out[i - |t.out|];
      }
    }
    forall i, j | 0 <= i < j < |out|
      ensures out[i] != out[j]
    {
      if j < |t.out| {
        assert out[i] == t.out[i] && out[j] == t.out[j];
      } else if i >= |t.out| {
        assert out[i] == u.out[i - |t.out|] && out[j] == u.out[j - |t.out|];
      } else {
        assert out[i] == t.out[i] && out[j] == u.out[j - |t.out|];
      }
    }
  }

  /**
   * Every addition is notified before every removal, and the additions run
   * from the top of the stacking list (its last element) downwards.
   */
  lemma UpdateClientsOrder(reg: Registry, stacking: seq<Wid>, t: Step, stale: set<Wid>, u: Step)
    requires AddedExactly(reg, t)
    requires forall i, j :: 0 <= i < j < |t.out| ==> Before(Reverse(stacking), t.out[i].wid, t.out[j].wid)
    requires RemovedExactly(t.reg, stale, u)
    ensures var out := t.out + u.out;
            forall i, j :: 0 <= i < j < |out| && out[j].ClientAdded? ==>
              out[i].ClientAdded? && Before(stacking, out[j].wid, out[i].wid)
  {
    var out := t.out + u.out;
    forall i, j | 0 <= i < j < |out| && out[j].ClientAdded?
      ensures out[i].ClientAdded? && Before(stacking, out[j].wid, out[i].wid)
    {
      if j >= |t.out| {
        assert false;
      }
      assert out[i] == t.out[i] && out[j] == t.out[j];
      BeforeReverse(stacking, out[i].wid, out[j].wid);
    }
  }

  /** The clients that survive the second loop were built by `Client(c)` in the first, if new. */
  lemma UpdateClientsFresh(reg: Registry, env: Env, t: Step, stale: set<Wid>, u: Step)
    requires AddedFresh(reg, env, t)
    requires RemovedExactly(t.reg, stale, u)
    ensures forall k :: k in u.reg.clients && k !in reg.clients ==>
              && reg.nextSerial <= u.reg.clients[k].serial
              && u.reg.clients[k] == NewClient(k, u.reg.clients[k].serial, Info(env, k))
  {
  }

  /** Running reconciliation twice on the same list and metadata: the second run does nothing. */
  lemma ReconcileIdempotent(reg: Registry, env: Env, stacking: seq<Wid>)
    ensures var s1 := UpdateClients(reg, env, stacking);
            var s2 := UpdateClients(s1.reg, env, stacking);
            s2.reg.clients == s1.reg.clients && s2.out == []
  {
  }

  /**
   * On a settled registry, dropping one tracked wid from the list destroys
   * exactly that client and notifies the Tiler exactly once.
   */
  lemma ReconcileDropsOne(reg: Registry, env: Env, stacking: seq<Wid>, shorter: seq<Wid>, gone: Wid)
    requires Settled(reg, env, stacking)
    requires gone in reg.clients && gone !in shorter
    requires forall k :: k in stacking && k != gone ==> k in shorter
    requires forall k :: k in shorter ==> k in stacking
    ensures var s := UpdateClients(reg, env, shorter);
            s.reg.clients == reg.clients - {gone} && s.out == [ClientRemoved(gone)]
  {
    var s := UpdateClients(reg, env, shorter);
    forall k | k in Reverse(shorter) && k !in reg.clients
      ensures Ignored(reg.ignore, env, k)
    {
      assert k in stacking;
    }
    TrackAllNoNew(reg, env, Reverse(shorter));
    var t := TrackAll(reg, env, Reverse(shorter));
    var stale := Stale(t.reg.clients, shorter);
    assert stale == {gone};
    var u := UntrackAll(t.reg, stale);
    assert s == Step(u.reg, t.out + u.out);
    OnlyRemoval(u.out, gone);
  }

  /** A repetition-free trace of removals of one window is that single removal. */
  lemma OnlyRemoval(out: seq<Effect>, gone: Wid)
    requires forall i :: 0 <= i < |out| ==> out[i].ClientRemoved? && out[i].wid in {gone}
    requires ClientRemoved(gone) in out
    requires forall i, j :: 0 <= i < j < |out| ==> out[i] != out[j]
    ensures out == [ClientRemoved(gone)]
  {
    AllTheSame(out, ClientRemoved(gone));
    SplitHead(out);
  }

  lemma AllTheSame(out: seq<Effect>, e: Effect)
    requires forall i :: 0 <= i < |out| ==> out[i] == e
    ensures |out| > 1 ==> out[0] == out[1]
  {
  }

  /** Focus-in with mode Ungrab ends a drag: GRAB cleared, `moving` off, one moved notification. */
  function FocusIn(reg: Registry, wid: Wid, mode: NotifyMode): (s: Step)
    ensures wid in reg.clients && reg.clients[wid].moving && mode == Ungrab ==>
              && s.out == [ClientMoved(wid)]
              && s.reg.grab == None
              && s.reg.clients.Keys == reg.clients.Keys
              && !s.reg.clients[wid].moving
              && s.reg.clients[wid].(moving := true) == reg.clients[wid]
              && (forall k :: k in reg.clients && k != wid ==> s.reg.clients[k] == reg.clients[k])
              && s.reg.ignore == reg.ignore && s.reg.nextSerial == reg.nextSerial
    ensures !(wid in reg.clients && reg.clients[wid].moving && mode == Ungrab) ==> s == Step(reg, [])
    ensures Valid(reg) ==> Valid(s.reg)
  {
    if wid in reg.clients && reg.clients[wid].moving && mode == Ungrab then
      var c := reg.clients[wid];
      Step(reg.(grab := None, clients := reg.clients[wid := c.(moving := false)]), [ClientMoved(wid)])
    else
      Step(reg, [])
  }

  /** Focus-out with mode Grab arms the detector: GRAB names this client; nothing else changes. */
  function FocusOut(reg: Registry, wid: Wid, mode: NotifyMode): (s: Step)
    ensures s.out == [] && s.reg.clients == reg.clients
    ensures s.reg.ignore == reg.ignore && s.reg.nextSerial == reg.nextSerial
    ensures s.reg.grab == if wid in reg.clients && mode == Grab then Some(reg.clients[wid].serial) else reg.grab
    ensures Valid(reg) ==> Valid(s.reg)
  {
    if wid in reg.clients && mode == Grab then Step(reg.(grab := Some(reg.clients[wid].serial)), [])
    else Step(reg, [])
  }

  /**
   * A configure notification on the decoration starts a drag exactly when
   * GRAB names this client and button 1 or 3 is held; the pointer is only
   * consulted once GRAB matches.
   */
  function ConfigureNotify(reg: Registry, wid: Wid, pointer: PointerReply): (s: Step)
    ensures s.out == []
    ensures s.reg.grab == reg.grab && s.reg.ignore == reg.ignore && s.reg.nextSerial == reg.nextSerial
    ensures s.reg.clients.Keys == reg.clients.Keys
    ensures forall k :: k in reg.clients && k != wid ==> s.reg.clients[k] == reg.clients[k]
    ensures wid in reg.clients ==>
              && s.reg.clients[wid].(moving := reg.clients[wid].moving) == reg.clients[wid]
              && (s.reg.clients[wid].moving <==>
                    reg.clients[wid].moving || (reg.grab == Some(reg.clients[wid].serial) && IsButtonPressed(pointer)))
    ensures Valid(reg) ==> Valid(s.reg)
  {
    if wid in reg.clients && reg.grab == Some(reg.clients[wid].serial) && IsButtonPressed(pointer) then
      Step(reg.(clients := reg.clients[wid := reg.clients[wid].(moving := true)]), [])
    else
      Step(reg, [])
  }

  /**
   * The drag cycle: focus-out(Grab), then a configure notification while
   * button 1 is held, makes the client moving; focus-in(Ungrab) ends it with
   * exactly one moved notification and leaves the clients as they were.
   */
  lemma DragCycle(reg: Registry, wid: Wid, mask: bv16)
    requires Valid(reg) && wid in reg.clients && !reg.clients[wid].moving
    requires mask & BUTTON1_MASK != 0
    ensures var s1 := FocusOut(reg, wid, Grab);
            var s2 := ConfigureNotify(s1.reg, wid, Pointer(mask));
            var s3 := FocusIn(s2.reg, wid, Ungrab);
            && s1.reg.clients == reg.clients
            && s2.reg.clients[wid].moving
            && Moveresize(s2.reg.clients[wid], None, None, None, None) == []
            && s3.reg.grab == None
            && s3.reg.clients == reg.clients
            && s1.out + s2.out + s3.out == [ClientMoved(wid)]
  {
    var s1 := FocusOut(reg, wid, Grab);
    var s2 := ConfigureNotify(s1.reg, wid, Pointer(mask));
    var s3 := FocusIn(s2.reg, wid, Ungrab);
    assert IsButtonPressed(Pointer(mask));
    assert s3.reg.clients[wid] == reg.clients[wid];
    assert s3.reg.clients == reg.clients by {
      assert s3.reg.clients.Keys == reg.clients.Keys;
      forall k | k in reg.clients
        ensures s3.reg.clients[k] == reg.clients[k]
      {
      }
    }
  }

  /** While GRAB names one client, configure notifications never start a drag on another. */
  lemma GrabBelongsToOneClient(reg: Registry, owner: Wid, other: Wid, pointer: PointerReply)
    requires Valid(reg) && owner in reg.clients && other in reg.clients && owner != other
    requires reg.grab == Some(reg.clients[owner].serial)
    ensures ConfigureNotify(reg, other, pointer).reg == reg
  {
  }

  /**
   * GRAB refers to a client object, not a window id: a grab armed by a
   * client that was untracked does not let the window's next client start
   * a drag.
   */
  lemma GrabDoesNotSurviveRetrack(reg: Registry, env: Env, wid: Wid, pointer: PointerReply)
    requires Valid(reg) && wid in reg.clients && !reg.clients[wid].moving
    ensures var s1 := FocusOut(reg, wid, Grab);
            var s2 := UntrackClient(s1.reg, wid);
            var s3 := TrackClient(s2.reg, env, wid);
            wid in s3.reg.clients ==> !ConfigureNotify(s3.reg, wid, pointer).reg.clients[wid].moving
  {
  }

  /**
   * The same holds when the window comes back through reconciliation, which
   * is how the program re-tracks it: the new client is at rest and GRAB
   * cannot name it.
   */
  lemma GrabDoesNotSurviveReconcile(reg: Registry, env: Env, wid: Wid, stacking: seq<Wid>, pointer: PointerReply)
    requires Valid(reg) && wid in reg.clients && !reg.clients[wid].moving
    ensures var s1 := FocusOut(reg, wid, Grab);
            var s2 := UntrackClient(s1.reg, wid);
            var s3 := UpdateClients(s2.reg, env, stacking);
            wid in s3.reg.clients ==> !ConfigureNotify(s3.reg, wid, pointer).reg.clients[wid].moving
  {
  }

  /**
   * `should_ignore` reaches a verdict about `wid`: either the cache answers
   * before any query, or the window still exists so that its queries succeed.
   */
  predicate Answers(reg: Registry, env: Env, wid: Wid)
  {
    wid in reg.ignore || wid in env.windows
  }

  /**
   * `cb_property_notify` of a client. On a desktop or state change a window
   * that has become ineligible is untracked; on a desktop change an
   * eligible one takes the new desktop, with one notification carrying the
   * old one, only when the new value is present and different. A window
   * that no longer exists and is not in the cache makes the first query of
   * `should_ignore` fail with `BadWindow`, which the callback swallows: it
   * changes nothing.
   */
  function PropertyNotify(reg: Registry, env: Env, wid: Wid, atom: string): (s: Step)
    ensures wid !in reg.clients || (atom != NET_WM_DESKTOP && atom != NET_WM_STATE) ==> s == Step(reg, [])
    ensures wid in reg.clients && (atom == NET_WM_DESKTOP || atom == NET_WM_STATE) && !Answers(reg, env, wid) ==>
              s == Step(reg, [])
    ensures wid in reg.clients && (atom == NET_WM_DESKTOP || atom == NET_WM_STATE) && Answers(reg, env, wid) ==>
              var f := ShouldIgnore(reg.ignore, env.ignoreList, wid, Info(env, wid));
              && s.reg.ignore == f.cache
              && (f.ignored ==> s.reg.clients == reg.clients - {wid} && s.out == [ClientRemoved(wid)])
              && (!f.ignored && atom == NET_WM_STATE ==> s == Step(reg, []))
    ensures wid in reg.clients && atom == NET_WM_DESKTOP && Answers(reg, env, wid) && !Ignored(reg.ignore, env, wid) ==>
              var was := reg.clients[wid].desk;
              var now := Info(env, wid).desktop;
              && s.reg.clients.Keys == reg.clients.Keys
              && (forall k :: k in reg.clients && k != wid ==> s.reg.clients[k] == reg.clients[k])
              && s.reg.clients[wid].(desk := was) == reg.clients[wid]
              && (now.Some? && now != was ==> s.reg.clients[wid].desk == now && s.out == [DesktopChanged(wid, was)])
              && (!(now.Some? && now != was) ==> s == Step(reg, []))
    ensures s.reg.grab == reg.grab && reg.ignore <= s.reg.ignore
    ensures Valid(reg) ==> Valid(s.reg)
  {
    if wid !in reg.clients then Step(reg, [])
    else if atom == NET_WM_DESKTOP || atom == NET_WM_STATE then
      if !Answers(reg, env, wid) then Step(reg, [])
      else
        var f := ShouldIgnore(reg.ignore, env.ignoreList, wid, Info(env, wid));
        if f.ignored then
          UntrackClient(reg.(ignore := f.cache), wid)
        else if atom == NET_WM_STATE then
          Step(reg, [])
        else
          var c := reg.clients[wid];
          var now := Info(env, wid).desktop;
          if now.Some? && now != c.desk then
            Step(reg.(clients := reg.clients[wid := c.(desk := now)]), [DesktopChanged(wid, c.desk)])
          else
            Step(reg, [])
    else
      Step(reg, [])
  }

  /**
   * A permanently disqualified window is untracked by its next desktop or
   * state change, and no later reconciliation tracks it again, whatever its
   * metadata has become by then.
   */
  lemma BecameTransientIsUntracked(reg: Registry, env: Env, wid: Wid, atom: string, later: Env, stacking: seq<Wid>)
    requires wid in reg.clients && wid !in reg.ignore && (atom == NET_WM_DESKTOP || atom == NET_WM_STATE)
    requires !Listed(env.ignoreList, Info(env, wid)) && Info(env, wid).transientFor.Some?
    ensures var s := PropertyNotify(reg, env, wid, atom);
            && wid !in s.reg.clients && wid in s.reg.ignore
            && s.out == [ClientRemoved(wid)]
            && wid !in UpdateClients(s.reg, later, stacking).reg.clients
  {
    var s := PropertyNotify(reg, env, wid, atom);
    var u := UpdateClients(s.reg, later, stacking);
    if wid in stacking {
      assert Ignored(s.reg.ignore, later, wid);
    }
  }

  /** The root window's property callback: a stacking-list change triggers reconciliation. */
  function RootPropertyNotify(reg: Registry, env: Env, atom: string, stacking: seq<Wid>): (s: Step)
    ensures atom != NET_CLIENT_LIST_STACKING ==> s == Step(reg, [])
    ensures atom == NET_CLIENT_LIST_STACKING ==> Reconciled(reg, env, stacking, s)
    ensures Valid(reg) ==> Valid(s.reg)
  {
    if atom == NET_CLIENT_LIST_STACKING then UpdateClients(reg, env, stacking) else Step(reg, [])
  }
}

=== FILE: wrappers.dfy ===
/** The Some/None datatype used for X properties that may be absent. */
module Wrappers {

  datatype Option<+T> = None | Some(value: T) {

    /** The value, or `default` when absent. */
    function GetOr(default: T): T {
      match this
      case Some(v) => v
      case None => default
    }
  }
}
